=== FILE: README.md ===
# Chat front-end and admin dashboard: a Dafny model

This project models the logic of a web front-end for a question-answering
chatbot: the end-user chat page, the admin document dashboard, and the admin
sign-in, plus the small server routes shipped with it (login, register,
chat logging, an in-memory document store) and the `fetchWithAuth` helper.

Every event handler is one atomic transition over an immutable state record.
Whatever the handler awaits comes in as a parameter:

- a backend response is a `Reply<T>` (`Ok(payload)` or `Fail(detail)`), or a
  richer datatype where the code distinguishes more cases;
- microphone permission is a `bool`;
- bcrypt and jsonwebtoken are function-typed fields of a `Crypto` record;
- database ids, UUIDs and timestamps are plain arguments;
- `connected = false` stands for a database that cannot be reached.

Browser storage is a `map<string, string>`. Toasts become a `Notice` value.

Modules:

- `Base`: `Option`, `Reply`, `Notice`, JavaScript truthiness of strings, and the `Bearer ${token}` header value.
- `Text`: `trim`, `split(" ")`, `String(n)`.
- `BrowserStorage`: `getItem`, `setItem` and `removeItem`.
- `Chat` and `ChatProperties`: `src/app/page.tsx`.
- `AdminDashboard`: `src/app/admin/dashboard/page.tsx`.
- `AdminAuth`: `src/app/admin/page.tsx` and `src/app/admin/dashboard/layout.tsx`.
- `Accounts`: the login and register routes.
- `ChatsRoute`: the chats route.
- `DocumentStore` and `DocumentsRoute`: `src/lib/documents.ts` and its route.
- `FetchAuth`: `src/lib/utils.ts`.

Behaviour kept as the code has it, even where a reader might expect otherwise:

- When no chat is active, `handleSubmit` creates one first. The query body still carries the chat id read when the handler began (`null`), not the new one.
- The audio request sends the bearer token as its `session_id` form field.
- The audio stop handler checks the login state captured when recording started.
- The header's logout removes the stored "sessionId", clears the login flag and the in-memory token, and nothing else. The transcript, the session list and the active chat stay.
- Any failure to list documents, including 401 and 403, shows the one message "Failed to fetch files".
- An answer that arrives after the user switched threads is appended to the new thread's transcript. Nothing discards stale responses.
- Admin sign-in stores its token under "adminToken". The dashboard guard, its logout and its requests all read "adminAuthenticated". Sign-in alone therefore never gets past the guard, and dashboard requests carry `Bearer null`.
- A user created by the register route has no role, so logging in returns no role for that user.

`trim()` strips the WhiteSpace and LineTerminator characters of ECMAScript 2023 (sections 12.2 and 12.3); `Text.IsWhitespace` lists exactly those.

`getDocuments` returns the store unchanged. The model is pure, so the store is never modified by reading it.

## Model

| member | source | states |
|---|---|---|
| Chat.RestoreSession | src/app/page.tsx:138-144 | a truthy stored "sessionId" logs the page in with that token; otherwise nothing changes |
| Chat.AuthButton | src/app/page.tsx:749-757 | logout removes only the "sessionId" key and clears the flag and token; every other field, including messages, sessions, the active chat and a live recording, stays; when logged out the button only opens the login dialog |
| Chat.ReceiveSessions | src/app/page.tsx:237-250 | a listed session array replaces `sessions`; a failure keeps them and shows "Failed to load chat sessions" |
| Chat.FetchUserSessions | src/app/page.tsx:226-251 | not signed in: no request and no change; signed in: one sessions request with the bearer token, only `sessions` may change, to the listed array on success, and a failure keeps them and shows "Failed to load chat sessions" |
| Chat.StartNewChat | src/app/page.tsx:292-321 | always requests a new session; success makes the returned id active and empties the transcript, then fires a session-list request if signed in; failure changes nothing and shows "Failed to create new chat" |
| Chat.SubmitBegin | src/app/page.tsx:368-385 | the user message is appended to the (possibly freshly emptied) transcript, input cleared, loading set, only the active chat may also change; the requests are the query alone in an active chat, else new-session, the session refresh when creation succeeded while signed in, then the query carrying the chat id read at the start |
| Chat.AnswerMessage | src/app/page.tsx:392-405 | the assistant entry is the answer with its source nodes, or exactly the fixed apology on failure |
| Chat.ReceiveAnswer | src/app/page.tsx:388-409 | the transcript grows by exactly the assistant entry; loading ends; nothing else changes |
| Chat.Submitted | src/app/page.tsx:368-409 | after the guards, messages equal the starting transcript followed by the user message and the answer or apology, the input is empty, loading is over, and nothing but the active chat changes besides |
| Chat.HandleSubmit | src/app/page.tsx:355-410 | blank input is a no-op; logged out only shows the log-in prompt with no request; otherwise it is the completed submission: messages become the starting transcript followed by user(input) and the answer or apology, the input is cleared, loading ends, and login, token, storage, sessions and recording stay |
| Chat.FromHistoryAll | src/app/page.tsx:273-277 | the loaded transcript mirrors the history entry for entry: role "user" gives a user message, any other role an assistant message, content and source nodes copied |
| Chat.LoadChatSession | src/app/page.tsx:253-290 | the chat id switches whatever the outcome; success replaces messages with the mirrored history; failure keeps messages and shows "Failed to load chat history"; loading ends false; nothing else changes |
| Chat.StartRecording | src/app/page.tsx:412-439 | with permission, recording starts and the recorder captures the current login state; without, only an error notice |
| Chat.StopRecording | src/app/page.tsx:441-446 | the clip is handed on exactly when a recorder exists and recording is on, and then only the recording flag is cleared; otherwise nothing changes |
| Chat.SendAudio | src/app/page.tsx:448-495 | not signed in by the captured state: prompt only; else one audio request whose session_id is the token; success appends transcription then answer; failure leaves messages unchanged |
| Chat.StopAndSend | src/app/page.tsx:423-446 | stopping a live recording sends the clip with the login state captured at the start: one audio request whose session_id is the token, and the transcription and answer appended on success, nothing on failure; the log-in prompt alone when that state was not signed in; with no live recording nothing happens |
| ChatProperties.WhitespaceSubmitIsNoOp | src/app/page.tsx:357 | whitespace-only input changes nothing, sends nothing, shows nothing |
| ChatProperties.LoggedOutSubmitOnlyPrompts | src/app/page.tsx:359-366 | with the flag false or no usable token, the state is unchanged, no request is sent, and the log-in prompt shows |
| ChatProperties.SubmitInActiveChat | src/app/page.tsx:372-405 | in an active chat, messages become old ++ [user(input), answer or apology], the input clears, and exactly one query with the active id is sent |
| ChatProperties.FailedQueryKeepsQuestion | src/app/page.tsx:399-405 | a failed query grows the transcript by two, keeps the user message and ends with the apology |
| ChatProperties.LazyChatQueryCarriesStaleId | src/app/page.tsx:368-385 | when a chat is created on the way, it becomes active but the query still carries the old id |
| ChatProperties.LateAnswerLandsInSwitchedThread | src/app/page.tsx:392-398 | an answer arriving after a thread switch is appended to the newly loaded thread |
| ChatProperties.MirrorsIsUnique | src/app/page.tsx:273-277 | the history mapping determines the transcript uniquely |
| ChatProperties.ReloadIsIdempotent | src/app/page.tsx:253-279 | loading the same history twice shows the same transcript |
| ChatProperties.FailedLoadSwitchesThreadOnly | src/app/page.tsx:253-289 | a failed load keeps the old transcript under the new active id, with loading false |
| ChatProperties.RecordingRoundTrip | src/app/page.tsx:441-491 | start, stop and send: one audio request; success appends exactly transcription and answer; failure appends nothing |
| ChatProperties.AudioUsesLoginStateFromRecordingStart | src/app/page.tsx:423-449 | logging out mid-recording still sends the clip with the old token |
| ChatProperties.SecondStopIsNoOp | src/app/page.tsx:441-446 | a second stop does nothing |
| ChatProperties.LogoutSticksAndKeepsTranscript | src/app/page.tsx:749-754 | after logout a freshly rendered page over the same storage stays logged out and the mount effect does not log the current page back in; a question only prompts; messages and sessions are kept |
| ChatProperties.RestoreEnablesSubmit | src/app/page.tsx:138-144 | a stored non-empty token restores a signed-in page |
| ChatProperties.ReloadSignsInExactlyWithStoredToken | src/app/page.tsx:110-144 | a freshly rendered page is signed in after mounting exactly when the stored "sessionId" is truthy, and then with that token |
| ChatProperties.SessionListFollowsLogin | src/app/page.tsx:226-251 | after logout no sessions request goes out; a page restored from a stored token asks with that token and lists what the backend returns, [] on failure with the toast |
| Text.TrimEmptyIffAllWhitespace | src/app/page.tsx:357 | `trim()` yields "" exactly when every character is whitespace |
| Text.JoinSplit | src/app/api/chats/route.ts:9 | joining the pieces of `split(" ")` gives back the header |
| Text.SplitPiecesAreSeparatorFree | src/app/api/chats/route.ts:9 | no piece of `split(" ")` contains a space |
| Text.SecondFieldFollowsFirstSeparator | src/app/api/chats/route.ts:9 | `split(" ")[1]` exists iff there is a space, and is the space-free run right after the first space |
| Text.DecimalString | src/lib/documents.ts:20 | `String(n)` is a non-empty string of decimal digits that denotes n, with no leading zero |
| Text.DecimalStringInjective | src/lib/documents.ts:20 | distinct numbers have distinct decimal strings |
| AdminDashboard.BeginFetch | src/app/admin/dashboard/page.tsx:30-38 | listing starts loading, clears the error, and requests with the "adminAuthenticated" value as bearer |
| AdminDashboard.FinishFetch | src/app/admin/dashboard/page.tsx:40-55 | an array `manuals` becomes the list, a non-array gives []; any failure keeps the list and sets "Failed to fetch files"; loading ends |
| AdminDashboard.FetchFiles | src/app/admin/dashboard/page.tsx:30-56 | one list request; success lists the `manuals` array (or [] when it is not one) and clears the error; any failure keeps the list, sets "Failed to fetch files" and shows the retry toast; loading false |
| AdminDashboard.UploadError | src/app/admin/dashboard/page.tsx:84-105 | a failed upload shows a truthy `detail`, else "Upload failed"; a thrown Error's message; else "Failed to upload file" |
| AdminDashboard.BeginUpload | src/app/admin/dashboard/page.tsx:71-82 | uploading is set and the upload request is sent; nothing else changes |
| AdminDashboard.FinishUpload | src/app/admin/dashboard/page.tsx:84-109 | success appends exactly one entry at the end; failure keeps the list and shows the error; uploading ends |
| AdminDashboard.HandleFileUpload | src/app/admin/dashboard/page.tsx:58-110 | no file: nothing; a MIME type other than exactly "application/pdf": rejected without request; else one upload request, success appends `Manual(file_name)` with the success toast, failure keeps the list and shows its error message; uploading ends |
| AdminDashboard.UploadingOnlyWhileInFlight | src/app/admin/dashboard/page.tsx:71-109 | uploading is true while the request is out and false after either outcome |
| AdminDashboard.ErrorReflectsLatestListing | src/app/admin/dashboard/page.tsx:30-56 | the error line is clear exactly when the latest listing succeeded, and a failed refresh keeps the files of the last successful one |
| AdminDashboard.FirstListingFromInitial | src/app/admin/dashboard/page.tsx:19-28 | the freshly rendered dashboard lists exactly what its first listing returns, or nothing when it fails, and is no longer loading |
| AdminDashboard.UploadsAppendInOrder | src/app/admin/dashboard/page.tsx:89-94 | two successful uploads append in upload order after the existing files |
| AdminAuth.FailureMessage | src/app/admin/page.tsx:44-53 | unparseable error body: "Authentication failed"; truthy detail: the detail; else "Invalid credentials or not an admin"; no token: "No access token received" |
| AdminAuth.AdminLogin | src/app/admin/page.tsx:26-72 | form is username = email and password; success writes only "adminToken" and navigates to /admin/dashboard; failure leaves storage and shows the reason; loading ends false |
| AdminAuth.Guard | src/app/admin/dashboard/layout.tsx:16-21 | the guard stays put exactly when "adminAuthenticated" is present with a non-empty value; otherwise (absent, or empty) it navigates to "/" |
| AdminAuth.Logout | src/app/admin/dashboard/layout.tsx:23-26 | removes "adminAuthenticated", keeps every other key, navigates to "/admin" |
| AdminAuth.LoginNeverSatisfiesGuard | src/app/admin/page.tsx:56 | whatever the backend answers, sign-in never makes a turned-away visitor pass the guard |
| AdminAuth.SuccessfulLoginIsBouncedFromDashboard | src/app/admin/dashboard/page.tsx:36 | from empty storage a successful sign-in heads for the dashboard, the guard sends the visitor home, and dashboard requests carry "Bearer null" |
| AdminAuth.LogoutClosesDashboardButKeepsToken | src/app/admin/dashboard/layout.tsx:24 | after logout the guard turns away and "adminToken" is still stored |
| Accounts.FindByEmail | src/app/api/login/route.ts:27 | finds the first user with that email, and none exactly when no user has it |
| Accounts.Login | src/app/api/login/route.ts:9-75 | missing email or password: 400 before lookup; an unknown email or a password that does not compare: 401 "Invalid credentials", and every 401 is that one; 200 exactly for a known email whose password compares, with token, session_id and role of that user |
| Accounts.Register | src/app/api/register/route.ts:10-63 | 400 for missing fields or an existing email, store unchanged; 201 exactly for a new email, appending one user with hash(password, 10), the issued session id, no role and the creation time `now`, and the response echoes the session id |
| Accounts.SecondRegistrationRejected | src/app/api/register/route.ts:28-35 | after a successful registration the same email is refused with the store unchanged |
| Accounts.RegisteredUserCanLogIn | src/app/api/login/route.ts:36-64 | if compare accepts a password against its own hash, a new user can log in and gets its session id and no role |
| Accounts.UnknownUserLooksLikeWrongPassword | src/app/api/login/route.ts:29-43 | unknown email and wrong password give identical responses |
| ChatsRoute.SessionFromAuthorization | src/app/api/chats/route.ts:9 | a session id exists exactly when the header is present and contains a space, and is the space-free run right after the first space |
| ChatsRoute.StoreChat | src/app/api/chats/route.ts:7-48 | no second header field: 401 and nothing stored; success appends exactly one record with that session id, query and response and answers 200 success true |
| ChatsRoute.BearerTokenIsStored | src/app/api/chats/route.ts:9 | "Bearer <token>" with a space-free token stores exactly that token |
| ChatsRoute.HeaderWithoutSecondFieldRefused | src/app/api/chats/route.ts:9-15 | a header with no space, or nothing after the first space, gets 401 with the store unchanged |
| DocumentStore.GetDocuments | src/lib/documents.ts:11-14 | returns the store itself, unfiltered and in order |
| DocumentStore.AddDocument | src/lib/documents.ts:16-27 | appends one document at the end, earlier ones unchanged, id String(old length + 1), name file.name, url "/uploads/" + name, returning the new last element |
| DocumentStore.InitialIsNumbered | src/lib/documents.ts:7-9 | the initial store (one document with id "1") is numbered |
| DocumentStore.AddKeepsNumbering | src/lib/documents.ts:19-25 | adding keeps "element i has id String(i + 1)" |
| DocumentStore.AddAllKeepsNumbering | src/lib/documents.ts:16-27 | any series of adds keeps the numbering and grows the store by one per file |
| DocumentStore.ReachableStoresAreNumbered | src/lib/documents.ts:7-27 | every store reachable from the initial one is numbered |
| DocumentStore.NumberedIdsAreUnique | src/lib/documents.ts:20 | in a numbered store ids are pairwise distinct |
| DocumentsRoute.Get | src/app/api/documents/route.ts:4-7 | GET returns exactly the current store with status 200 |
| DocumentsRoute.Post | src/app/api/documents/route.ts:9-24 | without a file: 400 "No file uploaded" and no change; with one: the store is that of `addDocument`, the new last document has id String(old length + 1), the file's name and "/uploads/" + name, the body is that document, and numbering is kept |
| DocumentsRoute.GetAfterPostListsNewDocumentLast | src/app/api/documents/route.ts:4-19 | a GET after a POST lists the earlier documents and then the new one last |
| DocumentsRoute.PostAllKeepsNumbering | src/app/api/documents/route.ts:9-19 | a series of POSTs keeps "element i has id String(i + 1)" and grows the store by one per file |
| DocumentsRoute.PostedIdsUnique | src/app/api/documents/route.ts:9-19 | however many files are posted to a fresh server through the route, ids stay unique |
| BrowserStorage.GetItem | src/app/page.tsx:139 | a key's stored value, and `null` exactly when the key is absent |
| BrowserStorage.SetItem | src/app/page.tsx:179 | the key then reads the value and every other key reads as before |
| BrowserStorage.RemoveItem | src/app/page.tsx:751 | the key then reads `null` and every other key reads as before |
| FetchAuth.MergeHeaders | src/lib/utils.ts:12-19 | keys are Content-Type, the caller's keys and Authorization when there is a token; Content-Type defaults to JSON; caller headers override; the token's Authorization overrides the caller's |
| FetchAuth.FetchWithAuth | src/lib/utils.ts:8-25 | url and every other option pass through; the headers are the merge of the JSON default, the caller's headers and the stored token; with no token exactly default plus caller; with one, the keys are Content-Type, Authorization and the caller's, every other caller header keeps its value, and Authorization is "Bearer " + token |
| FetchAuth.TokenOverridesCallerAuthorization | src/lib/utils.ts:14-19 | a caller-supplied Authorization is replaced by the stored token's |
| FetchAuth.WrappingIsIdempotent | src/lib/utils.ts:12-24 | passing the built request through the wrapper again changes nothing |

## Left out

- Rendering, styling, animation, Markdown, the sidebar, the help and source dialogs, and scrolling. They have no state logic to model.
- `SourceDialog` formats the relevance score with `parseFloat(...).toFixed(2)`. This is floating point and display only.
- `handleLogin` and `handleRegister` of the chat page. They belong to the login dialog's flow.
- `fetchHistory` and the `chatHistory` state. The login-state effect (src/app/page.tsx:146-149) runs `fetchHistory` after any sign-in, including the restore on mount, but it only fills `chatHistory`, which nothing renders.
- MediaRecorder, `getUserMedia` and Blob assembly. Only the permission outcome, the recording flag, the recorder's captured login state and the stop guard are modelled.
- Async interleaving and React's batching of state updates. Each handler is one atomic step. A late answer is modelled by applying `ReceiveAnswer` after another transition.
- The toast variant (destructive or not) and the console logging.
- The `loginDialogOpen` flag is tracked only for the logout button.
- Internals of bcrypt, jsonwebtoken, MongoDB and uuid. They are parameters. Closing the Mongo client has no modelled effect.
- JWT expiry ("1h") and the secret are folded into the uninterpreted `sign`.
- Request bodies whose fields are not strings. Missing fields are modelled; fields of other JSON types are not.
- Login and register bodies that are not JSON, or are `null`. `request.json()` and the destructuring run before the `try` (src/app/api/login/route.ts:10-11, src/app/api/register/route.ts:11-12), so such a request fails outside the route's 500 branch. `Credentials` only expresses present or missing fields.
- A `file` form entry that is a string in the documents route. A non-empty string passes the `!file` test and `addDocument` then stores the name `undefined` (src/app/api/documents/route.ts:11-18). `Option<UploadedFile>` only expresses a file or none.
- A `request.formData()` failure in the documents route happens outside its `try` and is not modelled. `addDocument` cannot fail in the model, so the route's 500 branch is unreachable here.
- `fetchWithAuth` headers given as a `Headers` object or as an array of pairs. Only a plain record or no headers are modelled. Header names are compared exactly, as object keys are.
- `cn` in `src/lib/utils.ts`, the login dialog, `DocumentUpload`, `DocumentList`, `LogoutButton` and `src/app/admin/layout.tsx`. They are UI or a single fetch-and-navigate.
- Accounts.Register: states that the stored password is `hash(password, 10)`. That it differs from the plaintext depends on bcrypt, which is uninterpreted here.
- DocumentsRoute.Get: the store is a value passed in, so "GET does not modify the store" holds by construction rather than by a contract.

=== FILE: accounts.dfy ===
/** The account routes `POST /api/login` and `POST /api/register` over the
    "users" collection, modelled as a sequence in insertion order. Password
    hashing, password comparison and token signing are uninterpreted
    functions supplied in a `Crypto` record; a database that cannot be
    reached is the `connected = false` case. */
module Accounts {

  import opened Base

  datatype StoredUser = StoredUser(
    id: string,
    email: string,
    password: string,         // as stored: the bcrypt hash
    sessionId: string,
    role: Option<string>,
    createdAt: int)

  /** The request body's `email` and `password`, each possibly missing. */
  datatype Credentials = Credentials(email: Option<string>, password: Option<string>)

  /** Payloads of the tokens the two routes sign. */
  datatype Claims =
    | LoginClaims(userId: string, sessionId: string, role: Option<string>)
    | RegisterClaims(userId: string, sessionId: string)

  /** `bcrypt.hash(password, rounds)`, `bcrypt.compare(password, hash)` and
      `jwt.sign(claims, secret, { expiresIn: "1h" })`. */
  datatype Crypto = Crypto(hash: (string, nat) -> string, compare: (string, string) -> bool, sign: Claims -> string)

  datatype Body =
    | MessageBody(message: string)
    | LoginBody(token: string, sessionId: string, role: Option<string>)
    | RegisterBody(token: string, sessionId: string)

  datatype Response = Response(status: int, body: Body)

  datatype Registration = Registration(users: seq<StoredUser>, response: Response)

  const BcryptRounds: nat := 10
  const MissingFields := Response(400, MessageBody("Email and password are required"))
  const BadCredentials := Response(401, MessageBody("Invalid credentials"))
  const AlreadyExists := Response(400, MessageBody("User already exists"))
  const ServerError := Response(500, MessageBody("Internal server error"))

  /** `email && password`. */
  predicate Complete(c: Credentials) {
    Truthy(c.email) && Truthy(c.password)
  }

  /** `users.findOne({ email })`: the position of the first user with that
      email, if any. */
  function FindByEmail(users: seq<StoredUser>, email: string): (r: Option<nat>)
    ensures r.None? <==> forall i :: 0 <= i < |users| ==> users[i].email != email
    ensures r.Some? ==>
      && r.value < |users| && users[r.value].email == email
      && forall j :: 0 <= j < r.value ==> users[j].email != email
  {
    if |users| == 0 then None
    else if users[0].email == email then Some(0)
    else
      match FindByEmail(users[1..], email)
      case None => None
      case Some(i) => Some(i + 1)
  }

  /** `POST /api/login`. */
  function Login(users: seq<StoredUser>, creds: Credentials, crypto: Crypto, connected: bool): (r: Response)
    ensures !Complete(creds) ==> r == MissingFields
    ensures Complete(creds) && !connected ==> r == ServerError
    ensures Complete(creds) && connected && FindByEmail(users, creds.email.value).None? ==> r == BadCredentials
    ensures Complete(creds) && connected && FindByEmail(users, creds.email.value).Some? &&
            !crypto.compare(creds.password.value, users[FindByEmail(users, creds.email.value).value].password) ==>
      r == BadCredentials
    ensures r.status == 401 ==> r == BadCredentials
    ensures r.status == 200 <==>
      && Complete(creds) && connected
      && FindByEmail(users, creds.email.value).Some?
      && crypto.compare(creds.password.value, users[FindByEmail(users, creds.email.value).value].password)
    ensures r.status == 200 ==>
      var u := users[FindByEmail(users, creds.email.value).value];
      r.body == LoginBody(crypto.sign(LoginClaims(u.id, u.sessionId, u.role)), u.sessionId, u.role)
  {
    if !Complete(creds) then MissingFields
    else if !connected then ServerError
    else
      match FindByEmail(users, creds.email.value)
      case None => BadCredentials
      case Some(i) =>
        var user := users[i];
        if !crypto.compare(creds.password.value, user.password) then BadCredentials
        else
          var token := crypto.sign(LoginClaims(user.id, user.sessionId, user.role));
          Response(200, LoginBody(token, user.sessionId, user.role))
  }

  /** `POST /api/register`. `newId` is the id the database assigns,
      `sessionId` the fresh UUID and `now` the creation time. */
  function Register(
    users: seq<StoredUser>, creds: Credentials, crypto: Crypto, connected: bool,
    newId: string, sessionId: string, now: int): (r: Registration)
    ensures r.response.status != 201 ==> r.users == users
    ensures !Complete(creds) ==> r.response == MissingFields
    ensures Complete(creds) && !connected ==> r.response == ServerError
    ensures Complete(creds) && connected && FindByEmail(users, creds.email.value).Some? ==>
      r.response == AlreadyExists
    ensures r.response.status == 201 <==>
      Complete(creds) && connected && FindByEmail(users, creds.email.value).None?
    ensures r.response.status == 201 ==>
      && |r.users| == |users| + 1
      && r.users[..|users|] == users
      && var u := r.users[|users|];
      && u.email == creds.email.value
      && u.password == crypto.hash(creds.password.value, BcryptRounds)
      && u.sessionId == sessionId && u.id == newId && u.role == None
      && u.createdAt == now
      && r.response.body.RegisterBody?
      && r.response.body.sessionId == u.sessionId
      && r.response.body.token == crypto.sign(RegisterClaims(newId, sessionId))
  {
    if !Complete(creds) then Registration(users, MissingFields)
    else if !connected then Registration(users, ServerError)
    else if FindByEmail(users, creds.email.value).Some? then Registration(users, AlreadyExists)
    else
      var hashed := crypto.hash(creds.password.value, BcryptRounds);
      var user := StoredUser(newId, creds.email.value, hashed, sessionId, None, now);
      var token := crypto.sign(RegisterClaims(newId, sessionId));
      Registration(users + [user], Response(201, RegisterBody(token, sessionId)))
  }

  /** Once an email is registered, registering it again is refused and
      leaves the collection as it is. */
  lemma SecondRegistrationRejected(
    users: seq<StoredUser>, creds: Credentials, again: Credentials, crypto: Crypto,
    id1: string, sid1: string, t1: int, id2: string, sid2: string, t2: int)
    requires Register(users, creds, crypto, true, id1, sid1, t1).response.status == 201
    requires Truthy(again.password) && again.email == creds.email
    ensures
      var after := Register(users, creds, crypto, true, id1, sid1, t1).users;
      Register(after, again, crypto, true, id2, sid2, t2) == Registration(after, AlreadyExists)
  {
  }

  /** A freshly registered user can sign in with the same password, provided
      `compare` accepts a password against its own hash; the session id
      returned is the one issued at registration, and no role comes back
      because registration stores none. */
  lemma RegisteredUserCanLogIn(
    users: seq<StoredUser>, creds: Credentials, crypto: Crypto, id: string, sid: string, now: int)
    requires Register(users, creds, crypto, true, id, sid, now).response.status == 201
    requires crypto.compare(creds.password.value, crypto.hash(creds.password.value, BcryptRounds))
    ensures
      var after := Register(users, creds, crypto, true, id, sid, now).users;
      var r := Login(after, creds, crypto, true);
      r.status == 200 && r.body.sessionId == sid && r.body.role == None
  {
  }

  /** An unknown email and a wrong password get the same answer. */
  lemma UnknownUserLooksLikeWrongPassword(
    users: seq<StoredUser>, others: seq<StoredUser>, creds: Credentials, crypto: Crypto)
    requires Complete(creds)
    requires FindByEmail(users, creds.email.value).None?
    requires FindByEmail(others, creds.email.value).Some?
    requires !crypto.compare(creds.password.value, others[FindByEmail(others, creds.email.value).value].password)
    ensures Login(users, creds, crypto, true) == Login(others, creds, crypto, true) == BadCredentials
  {
  }
}

=== FILE: admin_auth.dfy ===
/** Admin sign-in (`src/app/admin/page.tsx`) and the dashboard's guard and
    logout (`src/app/admin/dashboard/layout.tsx`), all over browser storage.
    Sign-in writes the token under "adminToken"; the guard, the logout and the
    dashboard's requests use "adminAuthenticated". */
module AdminAuth {

  import opened Base
  import opened BrowserStorage
  import AdminDashboard

  /** A field of the url-encoded login form. */
  datatype FormField = FormField(name: string, value: string)

  /** Body of a non-2xx response: not JSON at all, or JSON with this `detail`. */
  datatype ErrorBody = Unparseable | Parsed(detail: Option<string>)

  /** How the call to the admin token endpoint ended. */
  datatype AdminReply =
    | NotOk(body: ErrorBody)
    | OkBody(accessToken: Option<string>)
    | ThrownError(message: string)
    | ThrownValue

  datatype LoginOutcome = LoginOutcome(
    storage: Storage,
    form: seq<FormField>,
    navigateTo: Option<string>,
    notice: Notice,
    isLoading: bool)

  datatype Navigation = Navigation(storage: Storage, navigateTo: string)

  /** The key sign-in writes. The guard and the dashboard read
      `AdminDashboard.GuardKey` instead. */
  const TokenKey := "adminToken"
  const DashboardPath := "/admin/dashboard"
  const Welcome := Notice("Login Successful", "Redirecting to dashboard...")

  /** The `detail` the error path reads: an unparseable body is replaced by
      `{ detail: "Authentication failed" }` before it is read. */
  function ErrorDetail(body: ErrorBody): Option<string> {
    match body
    case Unparseable => Some("Authentication failed")
    case Parsed(detail) => detail
  }

  /** The message an unsuccessful sign-in shows. */
  function FailureMessage(reply: AdminReply): (m: string)
    requires !(reply.OkBody? && Truthy(reply.accessToken))
    ensures reply.NotOk? && reply.body.Unparseable? ==> m == "Authentication failed"
    ensures reply.NotOk? && reply.body.Parsed? && Truthy(reply.body.detail) ==> m == reply.body.detail.value
    ensures reply.NotOk? && reply.body.Parsed? && !Truthy(reply.body.detail) ==>
      m == "Invalid credentials or not an admin"
    ensures reply.OkBody? ==> m == "No access token received"
    ensures reply.ThrownError? ==> m == reply.message
    ensures reply.ThrownValue? ==> m == "An unknown error occurred."
  {
    match reply
    case NotOk(body) =>
      var detail := ErrorDetail(body);
      if Truthy(detail) then detail.value else "Invalid credentials or not an admin"
    case OkBody(_) => "No access token received"
    case ThrownError(message) => message
    case ThrownValue => "An unknown error occurred."
  }

  /** The admin `handleSubmit`: posts username = email and the password; on a
      usable token stores it under "adminToken" alone and heads for the
      dashboard; otherwise storage is untouched and the reason is shown. */
  function AdminLogin(st: Storage, email: string, password: string, reply: AdminReply): (r: LoginOutcome)
    ensures r.form == [FormField("username", email), FormField("password", password)]
    ensures !r.isLoading
    ensures reply.OkBody? && Truthy(reply.accessToken) ==>
      && GetItem(r.storage, TokenKey) == reply.accessToken
      && (forall k :: k != TokenKey ==> GetItem(r.storage, k) == GetItem(st, k))
      && r.navigateTo == Some(DashboardPath)
      && r.notice == Welcome
    ensures !(reply.OkBody? && Truthy(reply.accessToken)) ==>
      && r.storage == st
      && r.navigateTo == None
      && r.notice == Notice("Authentication Error", FailureMessage(reply))
  {
    var form := [FormField("username", email), FormField("password", password)];
    if reply.OkBody? && Truthy(reply.accessToken) then
      LoginOutcome(SetItem(st, TokenKey, reply.accessToken.value), form, Some(DashboardPath), Welcome, false)
    else
      LoginOutcome(st, form, None, Notice("Authentication Error", FailureMessage(reply)), false)
  }

  /** The dashboard layout's effect: without a truthy "adminAuthenticated"
      entry the visitor is sent to "/". */
  function Guard(st: Storage): (r: Option<string>)
    ensures r == None <==> AdminDashboard.GuardKey in st && st[AdminDashboard.GuardKey] != ""
    ensures r != None ==> r == Some("/")
  {
    if Truthy(GetItem(st, AdminDashboard.GuardKey)) then None else Some("/")
  }

  /** The dashboard's logout: drops "adminAuthenticated" only, then goes to
      the admin sign-in page. */
  function Logout(st: Storage): (r: Navigation)
    ensures AdminDashboard.GuardKey !in r.storage
    ensures forall k :: k != AdminDashboard.GuardKey ==> GetItem(r.storage, k) == GetItem(st, k)
    ensures r.navigateTo == "/admin"
  {
    Navigation(RemoveItem(st, AdminDashboard.GuardKey), "/admin")
  }

  /** Signing in never satisfies the guard by itself: whatever the backend
      answers, a visitor the guard turned away is still turned away. */
  lemma LoginNeverSatisfiesGuard(st: Storage, email: string, password: string, reply: AdminReply)
    requires Guard(st) == Some("/")
    ensures Guard(AdminLogin(st, email, password, reply).storage) == Some("/")
  {
  }

  /** From empty storage, a successful sign-in heads for the dashboard, the
      dashboard's guard sends the visitor home, and any dashboard request
      would carry "Bearer null" instead of the token. */
  lemma SuccessfulLoginIsBouncedFromDashboard(email: string, password: string, token: string)
    requires token != ""
    ensures
      var r := AdminLogin(map[], email, password, OkBody(Some(token)));
      && r.navigateTo == Some(DashboardPath)
      && GetItem(r.storage, TokenKey) == Some(token)
      && Guard(r.storage) == Some("/")
      && AdminDashboard.AdminBearer(r.storage) == "Bearer null"
  {
  }

  /** After logout the guard turns the visitor away, and the token stored by
      sign-in is still there. */
  lemma LogoutClosesDashboardButKeepsToken(st: Storage)
    ensures Guard(Logout(st).storage) == Some("/")
    ensures GetItem(Logout(st).storage, TokenKey) == GetItem(st, TokenKey)
  {
  }
}

=== FILE: admin_dashboard.dfy ===
/** The admin document dashboard (`src/app/admin/dashboard/page.tsx`): the
    list of uploaded manuals, two busy flags and an error line. Requests carry
    the value stored under "adminAuthenticated" as their bearer token. */
module AdminDashboard {

  import opened Base
  import opened BrowserStorage

  datatype Manual = Manual(fileName: string)

  datatype Dashboard = Dashboard(files: seq<Manual>, isLoading: bool, isUploading: bool, error: Option<string>)

  /** The file chosen in the picker: its name and its MIME type. */
  datatype PickedFile = PickedFile(name: string, mimeType: string)

  /** The `manuals` field of a listing response: an array, or anything else. */
  datatype ManualsField = ManualArray(items: seq<Manual>) | NotAnArray

  /** How an upload ended: a 2xx body with the stored file name; a non-2xx
      whose JSON body had this `detail`; or a thrown value (a transport or
      JSON error, with its message, or a non-Error value). */
  datatype UploadReply =
    | Uploaded(fileName: string)
    | Rejected(detail: Option<string>)
    | ThrownError(message: string)
    | ThrownValue

  datatype Request = ListRequest(authorization: string) | UploadRequest(authorization: string, file: PickedFile)

  datatype DashStep = DashStep(dash: Dashboard, request: Option<Request>, notice: Option<Notice>)

  const GuardKey := "adminAuthenticated"
  const PdfType := "application/pdf"
  const ListFailed := "Failed to fetch files"
  const ListFailedNotice := Notice("Error", "Failed to fetch files. Please try again.")
  const OnlyPdf := Notice("Error", "Only PDF files are accepted.")
  const UploadSucceeded := Notice("Success", "File uploaded successfully to vector database.")

  /** The dashboard as first rendered: nothing listed, already loading. */
  const Initial := Dashboard([], true, false, None)

  /** `Bearer ${localStorage.getItem("adminAuthenticated")}`. */
  function AdminBearer(st: Storage): string {
    Bearer(GetItem(st, GuardKey))
  }

  /** `fetchFiles` up to the request: loading, and the old error cleared. */
  function BeginFetch(d: Dashboard, st: Storage): (r: DashStep)
    ensures r.dash == d.(isLoading := true, error := None)
    ensures r.request == Some(ListRequest(AdminBearer(st))) && r.notice == None
  {
    DashStep(d.(isLoading := true, error := None), Some(ListRequest(AdminBearer(st))), None)
  }

  /** The listing's outcome. Any failure, whatever its status, gives the one
      message "Failed to fetch files" and leaves the list as it was. */
  function FinishFetch(d: Dashboard, reply: Reply<ManualsField>): (r: DashStep)
    ensures !r.dash.isLoading && r.dash.isUploading == d.isUploading && r.request == None
    ensures reply.Ok? && reply.payload.ManualArray? ==>
      r.dash.files == reply.payload.items && r.dash.error == d.error && r.notice == None
    ensures reply.Ok? && reply.payload.NotAnArray? ==>
      r.dash.files == [] && r.dash.error == d.error && r.notice == None
    ensures reply.Fail? ==>
      r.dash.files == d.files && r.dash.error == Some(ListFailed) && r.notice == Some(ListFailedNotice)
  {
    match reply
    case Ok(ManualArray(items)) => DashStep(d.(files := items, isLoading := false), None, None)
    case Ok(NotAnArray) => DashStep(d.(files := [], isLoading := false), None, None)
    case Fail(_) => DashStep(d.(error := Some(ListFailed), isLoading := false), None, Some(ListFailedNotice))
  }

  /** `fetchFiles` as one transition. */
  function FetchFiles(d: Dashboard, st: Storage, reply: Reply<ManualsField>): (r: DashStep)
    ensures r.request == Some(ListRequest(AdminBearer(st)))
    ensures !r.dash.isLoading
    ensures r.dash.isUploading == d.isUploading
    ensures reply.Ok? ==>
      && r.dash.error == None && r.notice == None
      && r.dash.files == (if reply.payload.ManualArray? then reply.payload.items else [])
    ensures reply.Fail? ==>
      r.dash.error == Some(ListFailed) && r.dash.files == d.files && r.notice == Some(ListFailedNotice)
  {
    var begun := BeginFetch(d, st);
    var done := FinishFetch(begun.dash, reply);
    DashStep(done.dash, begun.request, done.notice)
  }

  /** The message a failed upload shows: a truthy `detail`, else "Upload
      failed"; a thrown Error's own message; else a generic text. */
  function UploadError(reply: UploadReply): (m: string)
    requires !reply.Uploaded?
    ensures reply.Rejected? && Truthy(reply.detail) ==> m == reply.detail.value
    ensures reply.Rejected? && !Truthy(reply.detail) ==> m == "Upload failed"
    ensures reply.ThrownError? ==> m == reply.message
    ensures reply.ThrownValue? ==> m == "Failed to upload file"
  {
    match reply
    case Rejected(detail) => if Truthy(detail) then detail.value else "Upload failed"
    case ThrownError(message) => message
    case ThrownValue => "Failed to upload file"
  }

  /** The upload request is on its way. */
  function BeginUpload(d: Dashboard, st: Storage, file: PickedFile): (r: DashStep)
    ensures r.dash == d.(isUploading := true)
    ensures r.request == Some(UploadRequest(AdminBearer(st), file)) && r.notice == None
  {
    DashStep(d.(isUploading := true), Some(UploadRequest(AdminBearer(st), file)), None)
  }

  /** The upload's outcome: on success exactly one entry joins the end of the
      list; on failure the list stays and the failure's message is shown. */
  function FinishUpload(d: Dashboard, reply: UploadReply): (r: DashStep)
    ensures !r.dash.isUploading && r.request == None
    ensures r.dash.isLoading == d.isLoading && r.dash.error == d.error
    ensures reply.Uploaded? ==>
      r.dash.files == d.files + [Manual(reply.fileName)] && r.notice == Some(UploadSucceeded)
    ensures !reply.Uploaded? ==>
      r.dash.files == d.files && r.notice == Some(Notice("Error", UploadError(reply)))
  {
    match reply
    case Uploaded(name) => DashStep(d.(files := d.files + [Manual(name)], isUploading := false), None, Some(UploadSucceeded))
    case _ => DashStep(d.(isUploading := false), None, Some(Notice("Error", UploadError(reply))))
  }

  /** `handleFileUpload` as one transition: no file does nothing; anything
      but exactly "application/pdf" is refused before any request. */
  function HandleFileUpload(d: Dashboard, st: Storage, file: Option<PickedFile>, reply: UploadReply): (r: DashStep)
    ensures file.None? ==> r == DashStep(d, None, None)
    ensures file.Some? && file.value.mimeType != PdfType ==> r == DashStep(d, None, Some(OnlyPdf))
    ensures file.Some? && file.value.mimeType == PdfType ==>
      && r.request == Some(UploadRequest(AdminBearer(st), file.value))
      && r.dash == d.(files := r.dash.files, isUploading := false)
    ensures file.Some? && file.value.mimeType == PdfType && reply.Uploaded? ==>
      r.dash.files == d.files + [Manual(reply.fileName)] && r.notice == Some(UploadSucceeded)
    ensures file.Some? && file.value.mimeType == PdfType && !reply.Uploaded? ==>
      r.dash.files == d.files && r.notice == Some(Notice("Error", UploadError(reply)))
  {
    match file
    case None => DashStep(d, None, None)
    case Some(f) =>
      if f.mimeType != PdfType then DashStep(d, None, Some(OnlyPdf))
      else
        var begun := BeginUpload(d, st, f);
        var done := FinishUpload(begun.dash, reply);
        DashStep(done.dash, begun.request, done.notice)
  }

  /** While the request is out the dashboard shows it is uploading, and once
      it settles it no longer does, whatever the outcome. */
  lemma UploadingOnlyWhileInFlight(d: Dashboard, st: Storage, f: PickedFile, reply: UploadReply)
    ensures BeginUpload(d, st, f).dash.isUploading
    ensures !FinishUpload(BeginUpload(d, st, f).dash, reply).dash.isUploading
    ensures FinishUpload(BeginUpload(d, st, f).dash, reply).dash.files ==
            d.files + (if reply.Uploaded? then [Manual(reply.fileName)] else [])
  {
  }

  /** Successive successful uploads list their files in upload order after
      the files already there. */
  lemma UploadsAppendInOrder(d: Dashboard, st: Storage, a: PickedFile, b: PickedFile, na: string, nb: string)
    requires a.mimeType == PdfType && b.mimeType == PdfType
    ensures
      var first := HandleFileUpload(d, st, Some(a), Uploaded(na)).dash;
      var second := HandleFileUpload(first, st, Some(b), Uploaded(nb)).dash;
      second.files == d.files + [Manual(na), Manual(nb)]
  {
  }

  /** The error line is clear exactly when the latest listing succeeded, and
      a failed refresh keeps showing what the last successful one listed. */
  lemma ErrorReflectsLatestListing(d: Dashboard, st: Storage, good: ManualsField, bad: Reply<ManualsField>)
    requires bad.Fail?
    ensures forall reply: Reply<ManualsField> ::
      FetchFiles(d, st, reply).dash.error == None <==> reply.Ok?
    ensures
      var first := FetchFiles(d, st, Ok(good)).dash;
      var second := FetchFiles(first, st, bad).dash;
      && second.files == first.files
      && second.files == (if good.ManualArray? then good.items else [])
      && second.error == Some(ListFailed)
  {
  }

  /** The dashboard as first rendered lists exactly what its first listing
      returns, or nothing when that listing fails. */
  lemma FirstListingFromInitial(st: Storage, reply: Reply<ManualsField>)
    ensures var r := FetchFiles(Initial, st, reply).dash;
      && !r.isLoading && !r.isUploading
      && r.files == (if reply.Ok? && reply.payload.ManualArray? then reply.payload.items else [])
  {
  }
}

=== FILE: base.dfy ===
/** Small shared vocabulary: optional values, the outcome of a call the model
    cannot see (network, database), user-visible notices, and JavaScript
    truthiness of a possibly-missing string. */
module Base {

  datatype Option<+T> = None | Some(value: T) {
    function GetOr(default: T): T {
      match this
      case Some(v) => v
      case None => default
    }
  }

  /** Result of a backend, database or device call, supplied to a transition
      as a parameter: the decoded payload, or a failure with some detail. */
  datatype Reply<+T> = Ok(payload: T) | Fail(detail: string)

  /** A toast: the only trace a caught error leaves on the page. */
  datatype Notice = Notice(title: string, description: string)

  /** `if (x)` on a value that is a string, `null` or `undefined`:
      true exactly for a present, non-empty string. */
  predicate Truthy(s: Option<string>) {
    s.Some? && s.value != ""
  }

  /** Template-literal interpolation `${x}` of a string-or-null value. */
  function Interpolate(s: Option<string>): (r: string)
    ensures s.Some? ==> r == s.value
    ensures s.None? ==> r == "null"
  {
    match s
    case Some(v) => v
    case None => "null"
  }

  /** The `Authorization` header value `Bearer ${token}`. */
  function Bearer(token: Option<string>): (r: string)
    ensures |r| >= 7 && r[..7] == "Bearer "
    ensures token.Some? ==> r[7..] == token.value
  {
    "Bearer " + Interpolate(token)
  }
}

=== FILE: chat.dfy ===
/** The end-user chat page (`src/app/page.tsx`): a transcript of messages, the
    input box, the login flag and token, the active chat thread, and the
    recording flag. Every handler is one atomic transition; each backend
    response it awaits is a parameter. A transition yields the next state, the
    requests it sent, and the toast it showed, if any. */
module Chat {

  import opened Base
  import opened Text
  import opened BrowserStorage

  datatype Role = User | Assistant

  /** A citation attached to an assistant reply. The score stays a string:
      the page only formats it for display. */
  datatype SourceNode = SourceNode(text: string, score: string)

  datatype Message = Message(role: Role, content: string, sourceNodes: Option<seq<SourceNode>>)

  datatype ChatSession = ChatSession(id: string, title: string, createdAt: string)

  /** What the recorder's `onstop` handler remembers of the login state: the
      handler is created when recording starts and keeps that render's values. */
  datatype Recorder = Recorder(isLoggedIn: bool, token: Option<string>)

  datatype AppState = AppState(
    messages: seq<Message>,
    input: string,
    isLoggedIn: bool,
    token: Option<string>,          // the `sessionId` state: the bearer token
    activeChatId: Option<string>,
    isLoading: bool,
    loadingMessage: string,
    isRecording: bool,
    recorder: Option<Recorder>,     // `mediaRecorderRef.current`
    sessions: seq<ChatSession>,
    loginDialogOpen: bool,
    storage: Storage)

  /** Requests the page sends; `authorization` is the header value. */
  datatype Request =
    | QueryRequest(authorization: string, query: string, chatId: Option<string>)
    | HistoryRequest(authorization: string, historyId: string)
    | NewSessionRequest(authorization: string)
    | SessionsRequest(authorization: string)
    | AudioRequest(authorization: string, sessionField: string)

  datatype Step = Step(state: AppState, requests: seq<Request>, notice: Option<Notice>)

  /** Decoded bodies of successful backend responses. */
  datatype Answer = Answer(answer: string, sourceNodes: Option<seq<SourceNode>>)
  datatype AudioAnswer = AudioAnswer(transcribed: string, answer: string, sourceNodes: Option<seq<SourceNode>>)
  datatype HistoryItem = HistoryItem(role: string, content: string, sourceNodes: Option<seq<SourceNode>>)

  datatype StopResult = StopResult(state: AppState, dispatched: bool)

  const Apology := "Sorry, I encountered an error while processing your request."
  const Thinking := "The agent is thinking..."
  const LoginPrompt := Notice("Log In", "Please log in or register to use the chatbot.")
  const NewChatFailed := Notice("Error", "Failed to create new chat")
  const LoadChatFailed := Notice("Error", "Failed to load chat history")
  const SessionsFailed := Notice("Error", "Failed to load chat sessions")
  const AudioFailed := Notice("Error", "Failed to process audio. Please try again.")
  const MicrophoneFailed := Notice("Error", "Failed to start recording. Please check your microphone permissions.")

  /** The page as first rendered, over whatever the browser has stored. */
  function Initial(storage: Storage): AppState {
    AppState([], "", false, None, None, false, "", false, None, [], false, storage)
  }

  /** `isLoggedIn && sessionId`: the guard in front of the query and audio requests. */
  predicate SignedIn(isLoggedIn: bool, token: Option<string>) {
    isLoggedIn && Truthy(token)
  }

  /** `!input.trim()`. */
  predicate IsBlank(input: string) {
    Trim(input) == ""
  }

  function UserMessage(content: string): Message {
    Message(User, content, None)
  }

  function ApologyMessage(): Message {
    Message(Assistant, Apology, None)
  }

  /** The mount effect: a truthy stored token logs the page in. */
  function RestoreSession(s: AppState): (r: AppState)
    ensures Truthy(GetItem(s.storage, SessionKey)) ==>
      r == s.(isLoggedIn := true, token := GetItem(s.storage, SessionKey))
    ensures !Truthy(GetItem(s.storage, SessionKey)) ==> r == s
  {
    var stored := GetItem(s.storage, SessionKey);
    if Truthy(stored) then s.(isLoggedIn := true, token := stored) else s
  }

  /** The header button: logs out when logged in, else opens the login dialog.
      Logging out drops the stored and in-memory token only; the transcript,
      the session list and the active chat stay as they were. */
  function AuthButton(s: AppState): (r: AppState)
    ensures s.isLoggedIn ==>
      && r == s.(storage := r.storage, isLoggedIn := false, token := None)
      && GetItem(r.storage, SessionKey) == None
      && (forall k :: k != SessionKey ==> GetItem(r.storage, k) == GetItem(s.storage, k))
    ensures !s.isLoggedIn ==> r == s.(loginDialogOpen := true)
  {
    if s.isLoggedIn then
      s.(storage := RemoveItem(s.storage, SessionKey), isLoggedIn := false, token := None)
    else
      s.(loginDialogOpen := true)
  }

  /** Applies the response of `GET /chat/sessions`. */
  function ReceiveSessions(s: AppState, reply: Reply<seq<ChatSession>>): (r: Step)
    ensures r.requests == []
    ensures reply.Ok? ==> r.state == s.(sessions := reply.payload) && r.notice == None
    ensures reply.Fail? ==> r.state == s && r.notice == Some(SessionsFailed)
  {
    match reply
    case Ok(list) => Step(s.(sessions := list), [], None)
    case Fail(_) => Step(s, [], Some(SessionsFailed))
  }

  /** `fetchUserSessions`: nothing at all unless signed in. */
  function FetchUserSessions(s: AppState, reply: Reply<seq<ChatSession>>): (r: Step)
    ensures !SignedIn(s.isLoggedIn, s.token) ==> r == Step(s, [], None)
    ensures SignedIn(s.isLoggedIn, s.token) ==>
      && r.requests == [SessionsRequest(Bearer(s.token))]
      && r.state == s.(sessions := r.state.sessions)
      && r.state.sessions == (if reply.Ok? then reply.payload else s.sessions)
      && r.notice == (if reply.Ok? then None else Some(SessionsFailed))
  {
    if !SignedIn(s.isLoggedIn, s.token) then Step(s, [], None)
    else
      var t := ReceiveSessions(s, reply);
      Step(t.state, [SessionsRequest(Bearer(s.token))], t.notice)
  }

  /** `startNewChat`: asks for a fresh thread id; on success it becomes the
      active chat and the transcript is emptied. The follow-up session-list
      refresh is fired and not awaited, so only its request appears here. */
  function StartNewChat(s: AppState, reply: Reply<string>): (r: Step)
    ensures |r.requests| >= 1 && r.requests[0] == NewSessionRequest(Bearer(s.token))
    ensures reply.Ok? ==>
      && r.state == s.(activeChatId := Some(reply.payload), messages := [])
      && r.notice == None
      && r.requests[1..] == (if SignedIn(s.isLoggedIn, s.token) then [SessionsRequest(Bearer(s.token))] else [])
    ensures reply.Fail? ==>
      r.state == s && r.requests == [NewSessionRequest(Bearer(s.token))] && r.notice == Some(NewChatFailed)
  {
    var ask := NewSessionRequest(Bearer(s.token));
    match reply
    case Ok(id) =>
      var refresh := if SignedIn(s.isLoggedIn, s.token) then [SessionsRequest(Bearer(s.token))] else [];
      Step(s.(activeChatId := Some(id), messages := []), [ask] + refresh, None)
    case Fail(_) =>
      Step(s, [ask], Some(NewChatFailed))
  }

  /** The transcript `handleSubmit` appends to: the current one, or the empty
      one a lazily created chat leaves behind. */
  function SubmitBase(s: AppState, newChat: Reply<string>): seq<Message> {
    if !Truthy(s.activeChatId) && newChat.Ok? then [] else s.messages
  }

  /** `handleSubmit` up to the query request, once both guards have passed:
      the chat is created first when none is active, the user's message is
      shown at once, the input is cleared, and the query is sent with the
      chat id the handler read when it began. */
  function SubmitBegin(s: AppState, newChat: Reply<string>): (r: Step)
    ensures r.state.messages == SubmitBase(s, newChat) + [UserMessage(s.input)]
    ensures r.state.input == "" && r.state.isLoading && r.state.loadingMessage == Thinking
    ensures |r.requests| >= 1
    ensures r.requests[|r.requests| - 1] == QueryRequest(Bearer(s.token), s.input, s.activeChatId)
    ensures Truthy(s.activeChatId) ==>
      r.requests == [QueryRequest(Bearer(s.token), s.input, s.activeChatId)]
      && r.state.activeChatId == s.activeChatId && r.notice == None
    ensures !Truthy(s.activeChatId) ==>
      && r.requests[0] == NewSessionRequest(Bearer(s.token))
      && r.state.activeChatId == (if newChat.Ok? then Some(newChat.payload) else s.activeChatId)
      && r.notice == (if newChat.Ok? then None else Some(NewChatFailed))
    ensures r.state == s.(activeChatId := r.state.activeChatId, messages := r.state.messages,
                          input := "", isLoading := true, loadingMessage := Thinking)
    ensures !Truthy(s.activeChatId) ==>
      r.requests == [NewSessionRequest(Bearer(s.token))]
                    + (if newChat.Ok? && SignedIn(s.isLoggedIn, s.token) then [SessionsRequest(Bearer(s.token))] else [])
                    + [QueryRequest(Bearer(s.token), s.input, s.activeChatId)]
  {
    var created := if Truthy(s.activeChatId) then Step(s, [], None) else StartNewChat(s, newChat);
    var t := created.state;
    var shown := t.(messages := t.messages + [UserMessage(s.input)], input := "",
                    isLoading := true, loadingMessage := Thinking);
    Step(shown, created.requests + [QueryRequest(Bearer(s.token), s.input, s.activeChatId)], created.notice)
  }

  /** The assistant's entry for a query's outcome: the answer with its
      citations, or the fixed apology. */
  function AnswerMessage(reply: Reply<Answer>): (m: Message)
    ensures m.role == Assistant
    ensures reply.Ok? ==> m.content == reply.payload.answer && m.sourceNodes == reply.payload.sourceNodes
    ensures reply.Fail? ==> m == ApologyMessage()
  {
    match reply
    case Ok(a) => Message(Assistant, a.answer, a.sourceNodes)
    case Fail(_) => ApologyMessage()
  }

  /** The query's outcome is appended; either way the user's message stays. */
  function ReceiveAnswer(s: AppState, reply: Reply<Answer>): (r: Step)
    ensures r.state.messages == s.messages + [AnswerMessage(reply)]
    ensures r.state == s.(messages := r.state.messages, isLoading := false, loadingMessage := "")
    ensures r.requests == [] && r.notice == None
  {
    Step(s.(messages := s.messages + [AnswerMessage(reply)], isLoading := false, loadingMessage := ""), [], None)
  }

  /** `handleSubmit` once both guards have passed: the question and then its
      answer (or the apology) follow the transcript it started from. */
  function Submitted(s: AppState, newChat: Reply<string>, reply: Reply<Answer>): (r: Step)
    ensures r.state.messages == SubmitBase(s, newChat) + [UserMessage(s.input), AnswerMessage(reply)]
    ensures r.requests == SubmitBegin(s, newChat).requests
    ensures r.state.activeChatId == SubmitBegin(s, newChat).state.activeChatId
    ensures r.notice == SubmitBegin(s, newChat).notice
    ensures r.state == s.(activeChatId := r.state.activeChatId, messages := r.state.messages,
                          input := "", isLoading := false, loadingMessage := "")
  {
    var sent := SubmitBegin(s, newChat);
    var done := ReceiveAnswer(sent.state, reply);
    assert done.state.messages == sent.state.messages + [AnswerMessage(reply)];
    Step(done.state, sent.requests, sent.notice)
  }

  /** `handleSubmit` as one transition. */
  function HandleSubmit(s: AppState, newChat: Reply<string>, reply: Reply<Answer>): (r: Step)
    ensures IsBlank(s.input) ==> r == Step(s, [], None)
    ensures !IsBlank(s.input) && !SignedIn(s.isLoggedIn, s.token) ==> r == Step(s, [], Some(LoginPrompt))
    ensures !IsBlank(s.input) && SignedIn(s.isLoggedIn, s.token) ==> r == Submitted(s, newChat, reply)
  {
    if IsBlank(s.input) then Step(s, [], None)
    else if !SignedIn(s.isLoggedIn, s.token) then Step(s, [], Some(LoginPrompt))
    else Submitted(s, newChat, reply)
  }

  /** One history entry as the page shows it: role "user" stays a user
      message, any other role becomes an assistant message, and citations
      are carried over only when the entry has them. */
  function FromHistory(item: HistoryItem): Message {
    Message(if item.role == "user" then User else Assistant, item.content, item.sourceNodes)
  }

  /** `messages` shows exactly `history`, entry for entry. */
  predicate Mirrors(messages: seq<Message>, history: seq<HistoryItem>) {
    && |messages| == |history|
    && forall i :: 0 <= i < |history| ==>
         && (messages[i].role == User <==> history[i].role == "user")
         && messages[i].content == history[i].content
         && messages[i].sourceNodes == history[i].sourceNodes
  }

  function FromHistoryAll(history: seq<HistoryItem>): (r: seq<Message>)
    ensures Mirrors(r, history)
  {
    seq(|history|, i requires 0 <= i < |history| => FromHistory(history[i]))
  }

  /** `loadChatSession`: the chosen thread becomes active before the request,
      and stays active whatever the outcome; on success the transcript is
      replaced by the thread's history. */
  function LoadChatSession(s: AppState, chatId: string, reply: Reply<seq<HistoryItem>>): (r: Step)
    ensures r.requests == [HistoryRequest(Bearer(s.token), chatId)]
    ensures r.state.activeChatId == Some(chatId) && !r.state.isLoading
    ensures reply.Ok? ==> Mirrors(r.state.messages, reply.payload) && r.notice == None
    ensures reply.Fail? ==> r.state.messages == s.messages && r.notice == Some(LoadChatFailed)
    ensures r.state == s.(activeChatId := Some(chatId), isLoading := false, messages := r.state.messages)
  {
    var switched := s.(activeChatId := Some(chatId), isLoading := true);
    var ask := [HistoryRequest(Bearer(s.token), chatId)];
    match reply
    case Ok(history) => Step(switched.(messages := FromHistoryAll(history), isLoading := false), ask, None)
    case Fail(_) => Step(switched.(isLoading := false), ask, Some(LoadChatFailed))
  }

  /** `startRecording`: with microphone access granted, a recorder is created
      whose stop handler keeps the current login state. */
  function StartRecording(s: AppState, granted: bool): (r: Step)
    ensures r.requests == []
    ensures granted ==>
      r.state == s.(isRecording := true, recorder := Some(Recorder(s.isLoggedIn, s.token))) && r.notice == None
    ensures !granted ==> r.state == s && r.notice == Some(MicrophoneFailed)
  {
    if granted then Step(s.(isRecording := true, recorder := Some(Recorder(s.isLoggedIn, s.token))), [], None)
    else Step(s, [], Some(MicrophoneFailed))
  }

  /** `stopRecording`: only a live recording is stopped; stopping it hands the
      clip to the recorder's stop handler. */
  function StopRecording(s: AppState): (r: StopResult)
    ensures r.dispatched <==> s.recorder.Some? && s.isRecording
    ensures r.dispatched ==> r.state == s.(isRecording := false)
    ensures !r.dispatched ==> r.state == s
  {
    if s.recorder.Some? && s.isRecording then StopResult(s.(isRecording := false), true)
    else StopResult(s, false)
  }

  /** `sendAudioToBackend`, run by the stop handler with the login state it
      captured. The form's `session_id` field carries the bearer token. On
      success the transcript and then the answer are appended; on failure
      the transcript is left alone. */
  function SendAudio(s: AppState, captured: Recorder, reply: Reply<AudioAnswer>): (r: Step)
    ensures !SignedIn(captured.isLoggedIn, captured.token) ==> r == Step(s, [], Some(LoginPrompt))
    ensures SignedIn(captured.isLoggedIn, captured.token) ==>
      && r.requests == [AudioRequest(Bearer(captured.token), captured.token.value)]
      && !r.state.isLoading
      && r.state == s.(messages := r.state.messages, isLoading := false)
    ensures SignedIn(captured.isLoggedIn, captured.token) && reply.Ok? ==>
      && r.state.messages == s.messages + [UserMessage(reply.payload.transcribed),
                                           Message(Assistant, reply.payload.answer, reply.payload.sourceNodes)]
      && r.notice == None
    ensures SignedIn(captured.isLoggedIn, captured.token) && reply.Fail? ==>
      r.state.messages == s.messages && r.notice == Some(AudioFailed)
  {
    if !SignedIn(captured.isLoggedIn, captured.token) then Step(s, [], Some(LoginPrompt))
    else
      var ask := [AudioRequest(Bearer(captured.token), captured.token.value)];
      match reply
      case Ok(a) =>
        var heard := UserMessage(a.transcribed);
        var answered := Message(Assistant, a.answer, a.sourceNodes);
        Step(s.(messages := s.messages + [heard, answered], isLoading := false), ask, None)
      case Fail(_) =>
        Step(s.(isLoading := false), ask, Some(AudioFailed))
  }

  /** Pressing the microphone button while recording: stop, then let the
      stop handler send the clip. */
  function StopAndSend(s: AppState, reply: Reply<AudioAnswer>): (r: Step)
    ensures !(s.recorder.Some? && s.isRecording) ==> r == Step(s, [], None)
    ensures s.recorder.Some? && s.isRecording ==>
      && r == SendAudio(s.(isRecording := false), s.recorder.value, reply)
      && !r.state.isRecording
      && r.state.activeChatId == s.activeChatId
      && s.messages <= r.state.messages
    ensures s.recorder.Some? && s.isRecording && SignedIn(s.recorder.value.isLoggedIn, s.recorder.value.token) ==>
      && r.requests == [AudioRequest(Bearer(s.recorder.value.token), s.recorder.value.token.value)]
      && r.state.messages == s.messages + (if reply.Ok? then [UserMessage(reply.payload.transcribed),
                                                            Message(Assistant, reply.payload.answer, reply.payload.sourceNodes)]
                                           else [])
    ensures s.recorder.Some? && s.isRecording && !SignedIn(s.recorder.value.isLoggedIn, s.recorder.value.token) ==>
      r == Step(s.(isRecording := false), [], Some(LoginPrompt))
  {
    var stop := StopRecording(s);
    if stop.dispatched then SendAudio(stop.state, s.recorder.value, reply)
    else Step(stop.state, [], None)
  }
}

=== FILE: chat_properties.dfy ===
/** Properties of the chat page that relate several transitions, or that pin
    down the source's behaviour on whole classes of inputs. */
module ChatProperties {

  import opened Base
  import opened Text
  import opened BrowserStorage
  import opened Chat

  /** Whitespace-only input changes nothing, sends nothing, shows nothing. */
  lemma WhitespaceSubmitIsNoOp(s: AppState, newChat: Reply<string>, reply: Reply<Answer>)
    requires AllWhitespace(s.input)
    ensures HandleSubmit(s, newChat, reply) == Step(s, [], None)
  {
  }

  /** Logged out (flag false, or no usable token), a real question only
      prompts for login: transcript and input stay, and no request goes out. */
  lemma LoggedOutSubmitOnlyPrompts(s: AppState, newChat: Reply<string>, reply: Reply<Answer>)
    requires !AllWhitespace(s.input)
    requires !s.isLoggedIn || !Truthy(s.token)
    ensures HandleSubmit(s, newChat, reply) == Step(s, [], Some(LoginPrompt))
  {
  }

  /** With a chat already active, a submission appends exactly the user's
      message and then the answer (or the apology), clears the input, and
      sends one query carrying the active chat id. */
  lemma SubmitInActiveChat(s: AppState, newChat: Reply<string>, reply: Reply<Answer>)
    requires !AllWhitespace(s.input) && SignedIn(s.isLoggedIn, s.token)
    requires Truthy(s.activeChatId)
    ensures var r := HandleSubmit(s, newChat, reply);
      && r.state.messages == s.messages + [UserMessage(s.input), AnswerMessage(reply)]
      && r.state.input == ""
      && r.requests == [QueryRequest(Bearer(s.token), s.input, s.activeChatId)]
      && r.notice == None
  {
  }

  /** A failed query still grows the transcript by two, never by one: the
      user's message is not rolled back. */
  lemma FailedQueryKeepsQuestion(s: AppState, newChat: Reply<string>, detail: string)
    requires !AllWhitespace(s.input) && SignedIn(s.isLoggedIn, s.token)
    ensures var r := HandleSubmit(s, newChat, Fail(detail));
      && |r.state.messages| == |SubmitBase(s, newChat)| + 2
      && UserMessage(s.input) in r.state.messages
      && r.state.messages[|r.state.messages| - 1] == ApologyMessage()
  {
  }

  /** When no chat is active, the chat created on the way becomes active,
      yet the query still carries the id read when the handler began. */
  lemma LazyChatQueryCarriesStaleId(s: AppState, id: string, reply: Reply<Answer>)
    requires !AllWhitespace(s.input) && SignedIn(s.isLoggedIn, s.token)
    requires !Truthy(s.activeChatId) && id != ""
    ensures var r := HandleSubmit(s, Ok(id), reply);
      && r.state.activeChatId == Some(id)
      && r.requests[0] == NewSessionRequest(Bearer(s.token))
      && r.requests[|r.requests| - 1] == QueryRequest(Bearer(s.token), s.input, s.activeChatId)
      && r.requests[|r.requests| - 1].chatId != Some(id)
      && r.state.messages[0] == UserMessage(s.input)
  {
  }

  /** An answer arriving after the user switched threads is appended to the
      newly loaded thread: responses are not tied to the thread they were
      asked in. */
  lemma LateAnswerLandsInSwitchedThread(
    s: AppState, newChat: Reply<string>, other: string, history: seq<HistoryItem>, a: Answer)
    requires !IsBlank(s.input) && SignedIn(s.isLoggedIn, s.token)
    ensures
      var asked := SubmitBegin(s, newChat).state;
      var switched := LoadChatSession(asked, other, Ok(history)).state;
      var late := ReceiveAnswer(switched, Ok(a)).state;
      && late.activeChatId == Some(other)
      && |late.messages| == |history| + 1
      && Mirrors(late.messages[..|history|], history)
      && late.messages[|history|] == Message(Assistant, a.answer, a.sourceNodes)
  {
  }

  /** `Mirrors` determines the transcript completely. */
  lemma MirrorsIsUnique(a: seq<Message>, b: seq<Message>, history: seq<HistoryItem>)
    requires Mirrors(a, history) && Mirrors(b, history)
    ensures a == b
  {
  }

  /** Reloading the same thread twice shows the same transcript. */
  lemma ReloadIsIdempotent(s: AppState, chatId: string, history: seq<HistoryItem>)
    ensures
      var once := LoadChatSession(s, chatId, Ok(history)).state;
      var twice := LoadChatSession(once, chatId, Ok(history)).state;
      once.messages == twice.messages && once.activeChatId == twice.activeChatId
  {
  }

  /** A failed load leaves the old transcript under the new thread id. */
  lemma FailedLoadSwitchesThreadOnly(s: AppState, chatId: string, detail: string)
    ensures var r := LoadChatSession(s, chatId, Fail(detail));
      r.state.messages == s.messages && r.state.activeChatId == Some(chatId) && !r.state.isLoading
  {
  }

  /** A full recording round trip while signed in: the transcript gains the
      transcription and the answer on success and nothing on failure (unlike
      a failed text query, which leaves an apology). */
  lemma RecordingRoundTrip(s: AppState, reply: Reply<AudioAnswer>)
    requires SignedIn(s.isLoggedIn, s.token)
    ensures
      var started := StartRecording(s, true).state;
      var r := StopAndSend(started, reply);
      && !r.state.isRecording
      && r.requests == [AudioRequest(Bearer(s.token), s.token.value)]
      && (reply.Ok? ==> r.state.messages == s.messages + [UserMessage(reply.payload.transcribed),
            Message(Assistant, reply.payload.answer, reply.payload.sourceNodes)])
      && (reply.Fail? ==> r.state.messages == s.messages && r.notice == Some(AudioFailed))
  {
  }

  /** The stop handler judges login by the state at recording start: logging
      out mid-recording does not stop the clip from being sent with the old
      token. */
  lemma AudioUsesLoginStateFromRecordingStart(s: AppState, reply: Reply<AudioAnswer>)
    requires SignedIn(s.isLoggedIn, s.token)
    ensures
      var started := StartRecording(s, true).state;
      var loggedOut := AuthButton(started);
      var r := StopAndSend(loggedOut, reply);
      && !loggedOut.isLoggedIn
      && r.requests == [AudioRequest(Bearer(s.token), s.token.value)]
  {
  }

  /** Stopping is guarded: a second stop does nothing. */
  lemma SecondStopIsNoOp(s: AppState)
    ensures var once := StopRecording(s);
      !StopRecording(once.state).dispatched && StopRecording(once.state).state == once.state
  {
  }

  /** After logout the page stays logged out across a reload (a freshly
      rendered page over the same storage, and the mount effect run on the
      current page, both leave it logged out), refuses new questions, and
      still shows the old transcript and session list. */
  lemma LogoutSticksAndKeepsTranscript(s: AppState, newChat: Reply<string>, reply: Reply<Answer>)
    requires s.isLoggedIn && !AllWhitespace(s.input)
    ensures
      var out := AuthButton(s);
      && !RestoreSession(Initial(out.storage)).isLoggedIn
      && RestoreSession(out) == out
      && HandleSubmit(out, newChat, reply) == Step(out, [], Some(LoginPrompt))
      && out.messages == s.messages && out.sessions == s.sessions
  {
  }

  /** A stored token survives a reload: restoring logs the page in with it,
      and a logged-in page can then ask questions. */
  lemma RestoreEnablesSubmit(s: AppState, token: string)
    requires token != ""
    ensures
      var r := RestoreSession(s.(storage := SetItem(s.storage, SessionKey, token)));
      r.isLoggedIn && r.token == Some(token) && SignedIn(r.isLoggedIn, r.token)
  {
  }

  /** A freshly rendered page is signed in after the mount effect exactly
      when the browser holds a truthy "sessionId", and then with that token. */
  lemma ReloadSignsInExactlyWithStoredToken(st: Storage)
    ensures var r := RestoreSession(Initial(st));
      && (r.isLoggedIn <==> Truthy(GetItem(st, SessionKey)))
      && (r.isLoggedIn ==> r.token == GetItem(st, SessionKey))
      && r.messages == [] && r.activeChatId == None
  {
  }

  /** The session list follows the login state: after logout no sessions
      request goes out and nothing changes, while a page restored from a
      stored token asks with that token and shows what the backend lists. */
  lemma SessionListFollowsLogin(s: AppState, st: Storage, reply: Reply<seq<ChatSession>>)
    ensures s.isLoggedIn ==> FetchUserSessions(AuthButton(s), reply) == Step(AuthButton(s), [], None)
    ensures Truthy(GetItem(st, SessionKey)) ==>
      var r := FetchUserSessions(RestoreSession(Initial(st)), reply);
      && r.requests == [SessionsRequest(Bearer(GetItem(st, SessionKey)))]
      && r.state.sessions == (if reply.Ok? then reply.payload else [])
      && (r.notice == None <==> reply.Ok?)
  {
  }
}

=== FILE: chats_route.dfy ===
/** `POST /api/chats`: stores one query/response pair in the "chats"
    collection, keyed by the session id taken from the Authorization header. */
module ChatsRoute {

  import opened Base
  import opened Text

  datatype ChatRecord = ChatRecord(
    id: string,
    sessionId: string,
    query: Option<string>,
    response: Option<string>,
    timestamp: int)

  /** The JSON body's `query` and `response`, each possibly missing. */
  datatype ChatPayload = ChatPayload(query: Option<string>, response: Option<string>)

  datatype Body = MessageBody(message: string) | StoredBody(success: bool, chatId: string)

  datatype Response = Response(status: int, body: Body)

  datatype Outcome = Outcome(chats: seq<ChatRecord>, response: Response)

  const NoSession := Response(401, MessageBody("No session ID provided"))
  const ServerError := Response(500, MessageBody("Internal server error"))

  /** `request.headers.get("Authorization")?.split(" ")[1]`. */
  function SessionFromAuthorization(header: Option<string>): (r: Option<string>)
    ensures r.Some? <==> header.Some? && ' ' in header.value
    ensures header.Some? && ' ' in header.value && r.Some? ==>
      var h, i := header.value, IndexOf(header.value, ' ');
      && i + 1 + |r.value| <= |h|
      && r.value == h[i + 1..i + 1 + |r.value|]
      && ' ' !in r.value
      && (i + 1 + |r.value| == |h| || h[i + 1 + |r.value|] == ' ')
  {
    match header
    case None => None
    case Some(h) =>
      SecondFieldFollowsFirstSeparator(h, ' ');
      SecondField(h, ' ')
  }

  /** `POST /api/chats`. `payload` is None when the body is not JSON;
      `newId` is the id the database assigns and `now` the time stamp. */
  function StoreChat(
    chats: seq<ChatRecord>, header: Option<string>, payload: Option<ChatPayload>,
    connected: bool, newId: string, now: int): (r: Outcome)
    ensures r.response.status != 200 ==> r.chats == chats
    ensures !Truthy(SessionFromAuthorization(header)) ==> r.response == NoSession
    ensures Truthy(SessionFromAuthorization(header)) && !(payload.Some? && connected) ==>
      r.response == ServerError
    ensures r.response.status == 200 <==>
      Truthy(SessionFromAuthorization(header)) && payload.Some? && connected
    ensures r.response.status == 200 ==>
      && r.response.body == StoredBody(true, newId)
      && |r.chats| == |chats| + 1
      && r.chats[..|chats|] == chats
      && r.chats[|chats|] ==
           ChatRecord(newId, SessionFromAuthorization(header).value, payload.value.query, payload.value.response, now)
  {
    var sessionId := SessionFromAuthorization(header);
    if !Truthy(sessionId) then Outcome(chats, NoSession)
    else if payload.None? || !connected then Outcome(chats, ServerError)
    else
      var record := ChatRecord(newId, sessionId.value, payload.value.query, payload.value.response, now);
      Outcome(chats + [record], Response(200, StoredBody(true, newId)))
  }

  /** A header "Bearer <token>" whose token is non-empty and has no space
      stores exactly that token as the session id. */
  lemma {:induction false} BearerTokenIsStored(
    chats: seq<ChatRecord>, token: string, payload: ChatPayload, newId: string, now: int)
    requires token != "" && ' ' !in token
    ensures
      var r := StoreChat(chats, Some("Bearer " + token), Some(payload), true, newId, now);
      r.response.status == 200 && r.chats[|chats|].sessionId == token
  {
    var h := "Bearer " + token;
    assert h[6] == ' ';
    assert ' ' !in h[..6];
    assert IndexOf(h, ' ') == 6;
    SecondFieldFollowsFirstSeparator(h, ' ');
    assert h[7..] == token;
  }

  /** A header with no space, or with nothing between its first space and
      the next, is refused and nothing is stored. */
  lemma {:induction false} HeaderWithoutSecondFieldRefused(
    chats: seq<ChatRecord>, h: string, payload: Option<ChatPayload>, connected: bool, newId: string, now: int)
    requires ' ' !in h || (var i := IndexOf(h, ' '); i + 1 == |h| || h[i + 1] == ' ')
    ensures StoreChat(chats, Some(h), payload, connected, newId, now) == Outcome(chats, NoSession)
  {
    SecondFieldFollowsFirstSeparator(h, ' ');
  }
}

=== FILE: documents.dfy ===
/** The in-memory document store (`src/lib/documents.ts`): a module-level
    list whose ids are the decimal strings 1, 2, 3, ... in list order. The
    list is threaded through the functions instead of being mutated. */
module DocumentStore {

  import opened Text

  datatype Document = Document(id: string, name: string, url: string)

  /** The uploaded `File`; only its name is used. */
  datatype UploadedFile = UploadedFile(name: string)

  datatype Added = Added(documents: seq<Document>, document: Document)

  /** The store when the server process starts. */
  const Initial: seq<Document> := [Document("1", "Sample Document", "/sample.pdf")]

  /** The element at index i has id `String(i + 1)`. */
  ghost predicate Numbered(docs: seq<Document>) {
    forall i :: 0 <= i < |docs| ==> docs[i].id == DecimalString(i + 1)
  }

  /** `getDocuments`: the current list, as it is. */
  function GetDocuments(docs: seq<Document>): (r: seq<Document>)
    ensures r == docs
  {
    docs
  }

  /** `addDocument`: appends one document named after the file, with id
      `String(length + 1)` and url "/uploads/<name>", and returns it. */
  function AddDocument(docs: seq<Document>, file: UploadedFile): (r: Added)
    ensures |r.documents| == |docs| + 1
    ensures r.documents[..|docs|] == docs
    ensures r.documents[|docs|] == r.document
    ensures r.document.id == DecimalString(|docs| + 1)
    ensures r.document.name == file.name && r.document.url == "/uploads/" + file.name
  {
    var doc := Document(DecimalString(|docs| + 1), file.name, "/uploads/" + file.name);
    Added(docs + [doc], doc)
  }

  /** The store after adding each file in turn. */
  function AddAll(docs: seq<Document>, files: seq<UploadedFile>): seq<Document>
    decreases |files|
  {
    if files == [] then docs else AddAll(AddDocument(docs, files[0]).documents, files[1..])
  }

  lemma InitialIsNumbered()
    ensures Numbered(Initial)
  {
  }

  /** `addDocument` keeps the numbering. */
  lemma AddKeepsNumbering(docs: seq<Document>, file: UploadedFile)
    requires Numbered(docs)
    ensures Numbered(AddDocument(docs, file).documents)
  {
  }

  /** Every store the server can reach is numbered. */
  lemma {:induction false} ReachableStoresAreNumbered(files: seq<UploadedFile>)
    ensures Numbered(AddAll(Initial, files))
  {
    InitialIsNumbered();
    AddAllKeepsNumbering(Initial, files);
  }

  lemma {:induction false} AddAllKeepsNumbering(docs: seq<Document>, files: seq<UploadedFile>)
    requires Numbered(docs)
    ensures Numbered(AddAll(docs, files))
    ensures |AddAll(docs, files)| == |docs| + |files|
    decreases |files|
  {
    if files != [] {
      AddKeepsNumbering(docs, files[0]);
      AddAllKeepsNumbering(AddDocument(docs, files[0]).documents, files[1..]);
    }
  }

  /** In a numbered store no two documents share an id. */
  lemma {:induction false} NumberedIdsAreUnique(docs: seq<Document>)
    requires Numbered(docs)
    ensures forall i, j :: 0 <= i < |docs| && 0 <= j < |docs| && i != j ==> docs[i].id != docs[j].id
  {
    forall i, j | 0 <= i < |docs| && 0 <= j < |docs| && i != j
      ensures docs[i].id != docs[j].id
    {
      DecimalStringInjective(i + 1, j + 1);
    }
  }
}

/** The route `/api/documents` over the document store. */
module DocumentsRoute {

  import opened Base
  import opened Text
  import opened DocumentStore

  datatype Body = DocumentList(documents: seq<Document>) | DocumentBody(document: Document) | TextBody(text: string)

  datatype Response = Response(status: int, body: Body)

  datatype Posted = Posted(documents: seq<Document>, response: Response)

  const NoFile := Response(400, TextBody("No file uploaded"))

  /** `GET`: the whole store as JSON. */
  function Get(docs: seq<Document>): (r: Response)
    ensures r.status == 200 && r.body.DocumentList?
    ensures |r.body.documents| == |docs|
    ensures forall i :: 0 <= i < |docs| ==> r.body.documents[i] == docs[i]
  {
    Response(200, DocumentList(GetDocuments(docs)))
  }

  /** `POST`: without a file, 400 and no change; with one, the store grows
      by that document and the response is the document. */
  function Post(docs: seq<Document>, file: Option<UploadedFile>): (r: Posted)
    ensures file.None? ==> r == Posted(docs, NoFile)
    ensures file.Some? ==>
      && |r.documents| == |docs| + 1
      && docs <= r.documents
      && r.response == Response(200, DocumentBody(r.documents[|docs|]))
      && r.response.body.document.name == file.value.name
      && r.documents[|docs|] ==
         Document(DecimalString(|docs| + 1), file.value.name, "/uploads/" + file.value.name)
    ensures file.Some? ==> r.documents == AddDocument(docs, file.value).documents
    ensures Numbered(docs) ==> Numbered(r.documents)
  {
    match file
    case None => Posted(docs, NoFile)
    case Some(f) =>
      var added := AddDocument(docs, f);
      Posted(added.documents, Response(200, DocumentBody(added.document)))
  }

  /** A GET after a successful POST lists the posted document last, after
      everything listed before. */
  lemma GetAfterPostListsNewDocumentLast(docs: seq<Document>, file: UploadedFile)
    ensures
      var posted := Post(docs, Some(file));
      var listed := Get(posted.documents).body.documents;
      && listed[..|docs|] == Get(docs).body.documents
      && listed[|listed| - 1] == posted.response.body.document
  {
  }

  /** The store after posting each file in turn. */
  function PostAll(docs: seq<Document>, files: seq<UploadedFile>): seq<Document>
    decreases |files|
  {
    if files == [] then docs else PostAll(Post(docs, Some(files[0])).documents, files[1..])
  }

  /** Posting keeps the numbering, and each post adds one document. */
  lemma {:induction false} PostAllKeepsNumbering(docs: seq<Document>, files: seq<UploadedFile>)
    requires Numbered(docs)
    ensures Numbered(PostAll(docs, files))
    ensures |PostAll(docs, files)| == |docs| + |files|
    decreases |files|
  {
    if files != [] {
      PostAllKeepsNumbering(Post(docs, Some(files[0])).documents, files[1..]);
    }
  }

  /** Ids stay unique however many documents are posted to a fresh server. */
  lemma {:induction false} PostedIdsUnique(files: seq<UploadedFile>)
    ensures var docs := PostAll(Initial, files);
      forall i, j :: 0 <= i < |docs| && 0 <= j < |docs| && i != j ==> docs[i].id != docs[j].id
  {
    InitialIsNumbered();
    PostAllKeepsNumbering(Initial, files);
    NumberedIdsAreUnique(PostAll(Initial, files));
  }
}

=== FILE: fetch_auth.dfy ===
/** `fetchWithAuth` (`src/lib/utils.ts`): builds the headers of an outgoing
    request from a JSON default, the caller's headers and the stored token,
    and passes every other request option through. */
module FetchAuth {

  import opened Base
  import opened BrowserStorage

  type Headers = map<string, string>

  /** `RequestInit`: the headers (given as a plain record, or absent) and
      every other option, by name. */
  datatype RequestInit = RequestInit(headers: Option<Headers>, rest: map<string, string>)

  datatype FetchCall = FetchCall(url: string, init: RequestInit)

  const ContentType := "Content-Type"
  const Authorization := "Authorization"
  const Json := "application/json"

  /** Spreading `options.headers`: an absent value contributes nothing. */
  function CallerHeaders(h: Option<Headers>): Headers {
    h.GetOr(map[])
  }

  /** The header record: the JSON default, overridden by the caller's
      headers, then overridden by the bearer token when there is one. */
  function MergeHeaders(token: Option<string>, caller: Headers): (h: Headers)
    ensures h.Keys == {ContentType} + caller.Keys + (if Truthy(token) then {Authorization} else {})
    ensures ContentType !in caller ==> h[ContentType] == Json
    ensures forall k :: k in caller && !(k == Authorization && Truthy(token)) ==> h[k] == caller[k]
    ensures Truthy(token) ==> h[Authorization] == "Bearer " + token.value
    ensures !Truthy(token) ==> forall k :: k in h ==> k in caller || (k == ContentType && h[k] == Json)
  {
    var merged := map[ContentType := Json] + caller;
    if Truthy(token) then merged[Authorization := Bearer(token)] else merged
  }

  /** `fetchWithAuth(url, options)`: the call handed to `fetch`. */
  function FetchWithAuth(st: Storage, url: string, options: RequestInit): (r: FetchCall)
    ensures r.url == url && r.init.rest == options.rest
    ensures r.init.headers.Some? && ContentType in r.init.headers.value
    ensures r.init.headers.value[ContentType] ==
            (if ContentType in CallerHeaders(options.headers) then CallerHeaders(options.headers)[ContentType] else Json)
    ensures Truthy(GetItem(st, SessionKey)) ==>
      Authorization in r.init.headers.value &&
      r.init.headers.value[Authorization] == "Bearer " + st[SessionKey]
    ensures !Truthy(GetItem(st, SessionKey)) ==>
      r.init.headers.value == map[ContentType := Json] + CallerHeaders(options.headers)
    ensures Truthy(GetItem(st, SessionKey)) ==>
      && r.init.headers.value.Keys == {ContentType, Authorization} + CallerHeaders(options.headers).Keys
      && forall k :: k in CallerHeaders(options.headers) && k != Authorization ==>
           r.init.headers.value[k] == CallerHeaders(options.headers)[k]
    ensures r.init.headers == Some(MergeHeaders(GetItem(st, SessionKey), CallerHeaders(options.headers)))
  {
    var token := GetItem(st, SessionKey);
    FetchCall(url, RequestInit(Some(MergeHeaders(token, CallerHeaders(options.headers))), options.rest))
  }

  /** A caller-supplied Authorization is replaced by the stored token's. */
  lemma TokenOverridesCallerAuthorization(st: Storage, url: string, options: RequestInit, mine: string)
    requires Truthy(GetItem(st, SessionKey))
    requires options.headers == Some(map[Authorization := mine])
    ensures FetchWithAuth(st, url, options).init.headers.value ==
            map[ContentType := Json, Authorization := "Bearer " + st[SessionKey]]
  {
  }

  /** Wrapping twice changes nothing further: the headers the wrapper built
      survive being passed through it again. */
  lemma WrappingIsIdempotent(st: Storage, url: string, options: RequestInit)
    ensures var once := FetchWithAuth(st, url, options);
      FetchWithAuth(st, url, once.init) == once
  {
    var token := GetItem(st, SessionKey);
    var h := MergeHeaders(token, CallerHeaders(options.headers));
    var once := FetchWithAuth(st, url, options);
    assert once.init == RequestInit(Some(h), options.rest);
    assert CallerHeaders(once.init.headers) == h;
    var h2 := MergeHeaders(token, h);
    assert h2.Keys == h.Keys;
    assert forall k :: k in h ==> h2[k] == h[k];
    assert h2 == h;
  }
}

=== FILE: storage.dfy ===
/** Browser `localStorage` as a map from keys to string values. */
module BrowserStorage {

  import opened Base

  type Storage = map<string, string>

  /** The key under which the chat page keeps the user's token, and which
      `fetchWithAuth` reads it back from. */
  const SessionKey := "sessionId"

  /** `localStorage.getItem(key)`: the stored value, or `null`. */
  function GetItem(st: Storage, key: string): (r: Option<string>)
    ensures r.Some? <==> key in st
    ensures r.Some? ==> r.value == st[key]
  {
    if key in st then Some(st[key]) else None
  }

  /** `localStorage.setItem(key, value)`. */
  function SetItem(st: Storage, key: string, value: string): (r: Storage)
    ensures GetItem(r, key) == Some(value)
    ensures forall k :: k != key ==> GetItem(r, k) == GetItem(st, k)
  {
    st[key := value]
  }

  /** `localStorage.removeItem(key)`. */
  function RemoveItem(st: Storage, key: string): (r: Storage)
    ensures GetItem(r, key) == None
    ensures forall k :: k != key ==> GetItem(r, k) == GetItem(st, k)
  {
    st - {key}
  }
}

=== FILE: text.dfy ===
/** String operations the source relies on: `String.prototype.trim`,
    `String.prototype.split` on a one-character separator, and `String(n)`
    for a natural number. */
module Text {

  import opened Base

  /** The characters `trim` removes: ECMAScript WhiteSpace and LineTerminator. */
  predicate IsWhitespace(c: char) {
    || c == ' ' || c == '\t' || c == '\n' || c == '\r'
    || c == '\U{000B}' || c == '\U{000C}' || c == '\U{00A0}' || c == '\U{FEFF}'
    || c == '\U{1680}' || ('\U{2000}' <= c <= '\U{200A}')
    || c == '\U{2028}' || c == '\U{2029}' || c == '\U{202F}'
    || c == '\U{205F}' || c == '\U{3000}'
  }

  /** True when every character of `s` is whitespace (vacuously for ""). */
  predicate AllWhitespace(s: string) {
    forall i :: 0 <= i < |s| ==> IsWhitespace(s[i])
  }

  /** Drops leading whitespace. */
  function TrimStart(s: string): (r: string)
    ensures |r| <= |s| && r == s[|s| - |r|..]
    ensures AllWhitespace(s[..|s| - |r|])
    ensures r != [] ==> !IsWhitespace(r[0])
    decreases |s|
  {
    if s != [] && IsWhitespace(s[0]) then
      var r := TrimStart(s[1..]);
      assert s[..|s| - |r|] == [s[0]] + s[1..][..|s[1..]| - |r|];
      r
    else s
  }

  /** Drops trailing whitespace. */
  function TrimEnd(s: string): (r: string)
    ensures |r| <= |s| && r == s[..|r|]
    ensures AllWhitespace(s[|r|..])
    ensures r != [] ==> !IsWhitespace(r[|r| - 1])
    decreases |s|
  {
    if s != [] && IsWhitespace(s[|s| - 1]) then
      var r := TrimEnd(s[..|s| - 1]);
      assert s[|r|..] == s[..|s| - 1][|r|..] + [s[|s| - 1]];
      r
    else s
  }

  function Trim(s: string): string {
    TrimEnd(TrimStart(s))
  }

  /** `!s.trim()`: the trimmed string is empty exactly when every character
      of the input is whitespace. */
  lemma TrimEmptyIffAllWhitespace(s: string)
    ensures Trim(s) == "" <==> AllWhitespace(s)
  {
  }

  /** Position of the first occurrence of `c` in `s`. */
  function IndexOf(s: string, c: char): (i: nat)
    requires c in s
    ensures i < |s| && s[i] == c
    ensures c !in s[..i]
  {
    if s[0] == c then 0
    else
      var j := IndexOf(s[1..], c);
      assert s[..j + 1] == [s[0]] + s[1..][..j];
      j + 1
  }

  /** `s.split(sep)` for a one-character separator: the maximal
      separator-free pieces, in order, always at least one. */
  function Split(s: string, sep: char): (parts: seq<string>)
    ensures |parts| >= 1
    decreases |s|
  {
    if sep !in s then [s]
    else
      var i := IndexOf(s, sep);
      [s[..i]] + Split(s[i + 1..], sep)
  }

  /** `parts.join(sep)`. */
  function Join(parts: seq<string>, sep: char): string {
    if |parts| == 0 then ""
    else if |parts| == 1 then parts[0]
    else parts[0] + [sep] + Join(parts[1..], sep)
  }

  /** Splitting loses nothing: joining the pieces back gives the input. */
  lemma {:induction false} JoinSplit(s: string, sep: char)
    ensures Join(Split(s, sep), sep) == s
    decreases |s|
  {
    if sep in s {
      var i := IndexOf(s, sep);
      var rest := s[i + 1..];
      JoinSplit(rest, sep);
      assert Split(s, sep)[1..] == Split(rest, sep);
      assert s == s[..i] + [sep] + rest;
    }
  }

  /** No piece of a split contains the separator. */
  lemma {:induction false} SplitPiecesAreSeparatorFree(s: string, sep: char)
    ensures forall k :: 0 <= k < |Split(s, sep)| ==> sep !in Split(s, sep)[k]
    decreases |s|
  {
    if sep in s {
      var i := IndexOf(s, sep);
      SplitPiecesAreSeparatorFree(s[i + 1..], sep);
      assert Split(s, sep)[1..] == Split(s[i + 1..], sep);
    }
  }

  /** `s.split(sep)[1]`: the second piece, or `undefined` when there is none. */
  function SecondField(s: string, sep: char): Option<string> {
    var parts := Split(s, sep);
    if |parts| >= 2 then Some(parts[1]) else None
  }

  /** The second field exists exactly when the separator occurs, and it is the
      separator-free run that starts right after the first separator and ends
      at the next separator or at the end of the string. */
  lemma {:induction false} SecondFieldFollowsFirstSeparator(s: string, sep: char)
    ensures SecondField(s, sep).Some? <==> sep in s
    ensures sep in s ==>
      var i := IndexOf(s, sep);
      var f := SecondField(s, sep).value;
      && i + 1 + |f| <= |s|
      && f == s[i + 1..i + 1 + |f|]
      && sep !in f
      && (i + 1 + |f| == |s| || s[i + 1 + |f|] == sep)
  {
    if sep in s {
      var i := IndexOf(s, sep);
      var rest := s[i + 1..];
      assert Split(s, sep)[1..] == Split(rest, sep);
      var f := Split(rest, sep)[0];
      if sep in rest {
        var j := IndexOf(rest, sep);
        assert f == rest[..j];
      } else {
        assert f == rest;
      }
    }
  }

  /** The character for a decimal digit. */
  function DigitChar(d: nat): (c: char)
    requires d < 10
    ensures '0' <= c <= '9'
  {
    (48 + d) as char
  }

  /** The number a string of decimal digits denotes, most significant first. */
  function DigitsValue(s: string): int {
    if |s| == 0 then 0
    else 10 * DigitsValue(s[..|s| - 1]) + (s[|s| - 1] as int - '0' as int)
  }

  /** `String(n)` for a natural number: its decimal digits, no leading zero. */
  function DecimalString(n: nat): (r: string)
    ensures |r| >= 1
    ensures n >= 10 ==> |r| >= 2
    ensures forall k :: 0 <= k < |r| ==> '0' <= r[k] <= '9'
    ensures DigitsValue(r) == n
    ensures |r| == 1 || r[0] != '0'
    decreases n
  {
    if n < 10 then [DigitChar(n)]
    else DecimalString(n / 10) + [DigitChar(n % 10)]
  }

  /** Distinct numbers have distinct decimal strings. */
  lemma {:induction false} DecimalStringInjective(a: nat, b: nat)
    ensures DecimalString(a) == DecimalString(b) ==> a == b
    decreases a
  {
  }
}
